=== FILE: README.md ===
# ReelCraft accounts, route guard and upload gate — a Dafny model

ReelCraft is a Next.js video-sharing application. Most of it is pages. This
project models the few parts that make decisions:

- **The account store and authentication.** This covers the `User` schema
  (required, unique, lower-cased email; optional password; sparse-unique
  `googleId`) and its `pre("save")` hashing hook. It also covers the
  registration endpoint, the credentials provider's `authorize`, and the
  `signIn`, `jwt` and `session` callbacks. Files: `user_model.dfy`,
  `register_route.dfy`, `auth.dfy`, with `passwords.dfy` for bcrypt and
  `object_ids.dfy` for `_id.toString()`.
- **The route guard's matcher.** This is the middleware's `config.matcher`
  pattern `/((?!_next/static|_next/image|favicon.ico|public/).*)`, read as a
  JavaScript regular expression over the request path (`middleware.dfy`).
  It decides which paths the `withAuth` middleware runs on.
- **The upload gate.** This covers `validateFile`, the early return and
  state changes of `handleFileChange`, the progress percentage and the
  `accept` attribute of `FileUpload` (`file_upload.dfy`).

The collection is a map from the stored, lower-cased email to the user
document, plus a counter that hands out fresh `_id`s. `Valid` states the
schema's invariants over the whole map:

- every document is stored under its own email, which is non-empty and
  lower-cased;
- `_id`s are distinct;
- no two documents share a present `googleId`.

No operation requires `Valid`. Each one promises that it keeps `Valid` if
the store had it before.

bcrypt draws a random salt, so hashing is not a function of the password. The
model makes the salt a parameter. A digest records the value it was computed
from, and `Matches(pw, stored)` holds exactly when `stored` is a digest of
`pw` itself. Hashing a digest again therefore gives a value that no password
matches, which is the failure that "double hashing" would cause.

A change event of the upload component is modelled as the sequence of effects
the handler produces:

- `setError` and `setUploading` calls;
- the auth-parameter fetch;
- the upload;
- progress reports;
- the call to `onSuccess`, or the logged failure.

The state afterwards is those effects applied in order. The network's
behaviour is a parameter.

Behaviour worth knowing, all proved:

- **Validation never blocks a video.** A video-typed component uploads
  whatever the file's MIME type and size.
- **Other components never upload.** `validateFile` returns `undefined` for
  them, so the handler returns early.
- **Validation messages do not survive.** They are cleared when the upload
  starts, and `error` is null when the handler finishes.
- **The `.` in `favicon.ico` is unescaped.** `/favicon-ico` is therefore not
  matched either.
- **`/public` and `/publicity` are matched.** Only `/public/` with its
  trailing slash is excluded.
- **The middleware's own targets match the pattern.** `/login`, `/register`,
  `/api/auth/register` and `/error` are all matched by `config.matcher`.
- **Google sign-in never writes a `googleId`.** It stores only an email and a
  null password, so no password login for that account succeeds.
- **Google sessions carry the provider's id.** After a Google sign-in,
  `session.user.id` is the user id the provider reported, not the document's
  `_id`. After a password login it is the `_id`'s hex string.

Further facts about the code that the model keeps:

- Google sign-in looks a user up by email only, never by `googleId`.
- Google sign-in never attaches a `googleId` to an existing account.
- The session token carries only the user id, not the provider it came from.
- The error page is `/login` in the authentication options but `/error` in
  the middleware. Both are modelled as written (`Auth.ErrorPage`,
  `Middleware.ErrorPage`).

Stated assumptions:

- `findOne({email})` lower-cases its query the same way the schema
  lower-cases the stored field. Mongoose applies schema setters to query
  filters, but this is taken as given.
- A null password is left null by the save hook.
- `bcrypt.compare` against a null password counts as "no match". It gives
  `"Invalid Password"`, and never success.
- `_id`s come from a counter, so a fresh `_id` is always unused.

## Model

| member | source | states |
|---|---|---|
| Text.Lower | src/app/models/User.ts:19 | the schema's `lowercase` setter keeps the length, shifts each capital ASCII letter to its small letter, keeps every other character, and leaves no capital behind |
| Text.LowerIdempotent | src/app/models/User.ts:19 | storing an email lower-cases it once for all: lower-casing the stored value again changes nothing |
| UserModel.CaseVariantsShareKey | src/app/models/User.ts:19 | two emails share a storage and lookup key exactly when they differ at most in the ASCII case of their letters (same length, each position equal or one the capital of the other) |
| UserModel.EmailsRequiredAndUnique | src/app/models/User.ts:15-19 | in a valid collection every user has a non-empty email and no two users share one |
| UserModel.GoogleIdSparseUnique | src/app/models/User.ts:25 | two distinct users can share a `googleId` value only by both lacking one (sparse unique index) |
| UserModel.FindByEmail | src/app/api/auth/register/route.ts:16 | `findOne({email})` finds a document exactly when one is stored under the lower-cased query, and returns that document |
| UserModel.PreSave | src/app/models/User.ts:34-39 | the hook changes nothing but the password, and replaces it by its hash exactly when the password path was modified and present |
| UserModel.Save | src/app/models/User.ts:34-39 | after `save()` the document is clean; nothing but the password changes, and it becomes the hash of the old value exactly when the password path was modified and present |
| UserModel.ResaveChangesNothing | src/app/models/User.ts:34-39 | saving again without touching the password yields the same document: a digest is never hashed twice |
| UserModel.SavedPasswordMatches | src/app/models/User.ts:34-37 | a new document saved with a plain password stores a digest that password matches |
| UserModel.Create | src/app/models/User.ts:13-32 | create succeeds iff the lower-cased email is non-empty and unused and the `googleId` is free; the new document is stored under its lower-cased email, holds a digest of the given password (or none), gets an unused `_id`, and validity of the collection is preserved |
| Passwords.Hash | src/app/models/User.ts:36 | `bcrypt.hash(password, 10)` yields a digest of exactly the given value at cost 10 |
| Passwords.FreshHashMatches | src/app/models/User.ts:36 | a freshly hashed password matches itself, whatever salt was drawn |
| Passwords.MatchesDeterminesPassword | src/app/lib/auth.ts:30 | a stored digest matches at most one password |
| Passwords.DoubleHashMatchesNothing | src/app/models/User.ts:34-37 | a user's own password never matches a digest of its digest, nor does any password typed at the login form |
| ObjectIds.IdString | src/app/lib/auth.ts:35 | `_id.toString()` is a string of at least 24 hexadecimal digits |
| ObjectIds.IdStringInjective | src/app/lib/auth.ts:35 | two documents have the same `_id.toString()` exactly when they have the same `_id` |
| ObjectIds.IdStringWidth | src/app/lib/auth.ts:35 | a 12-byte ObjectId prints as exactly 24 hex digits |
| RegisterRoute.Post | src/app/api/auth/register/route.ts:5-37 | an unreadable body gives 500; a missing or empty field gives 400 "Email and Password are required" before any lookup; an existing email in any case gives 400 "User already exists"; every non-200 outcome leaves the collection unchanged; a 200 adds exactly one document under the lower-cased email, whose digest the password matches, and the response carries only its id string and email |
| RegisterRoute.RegisterSucceedsOnFreshEmail | src/app/api/auth/register/route.ts:16-31 | with both fields present and the email unused, registration answers 200 |
| RegisterRoute.RegisterTwiceKeepsOneRecord | src/app/api/auth/register/route.ts:16-23 | registering the same email twice, in any letter case, refuses the second attempt with "User already exists" and leaves exactly one new document |
| Auth.Authorize | src/app/lib/auth.ts:18-43 | exactly one of, each in both directions: "Email and Password are required" when credentials or a field are missing or empty; "No user found with the given email" when no document has the email; "Invalid Password" when the password does not match the stored digest; success, with `{id: _id string, email}` of the stored document, exactly when it does match |
| Auth.CredentialsLogin | src/app/lib/auth.ts:18-82 | a password login never changes the collection, fails with exactly the error `authorize` threw, and on success puts the authorized id into `session.user.id` |
| Auth.SignIn | src/app/lib/auth.ts:55-68 | the callback answers true whenever it returns; non-Google providers and known emails leave the collection unchanged; an unknown non-empty email via Google adds exactly `{email, password: null}` without `googleId`; an empty email makes `create` throw; validity is preserved |
| Auth.GoogleSignInIdempotent | src/app/lib/auth.ts:55-67 | a second Google sign-in with the same email changes nothing |
| Auth.GoogleAccountRefusesPasswords | src/app/lib/auth.ts:30-33 | a Google-created record has an email, no password and no `googleId`, and `authorize` never succeeds for it |
| Auth.Jwt | src/app/lib/auth.ts:70-75 | `token.id` becomes `user.id` only when a user is present with a non-empty id; otherwise the token is returned unchanged; other claims are kept |
| Auth.SessionOf | src/app/lib/auth.ts:77-82 | `session.user.id` is `token.id` when the session has a user; nothing else changes |
| Auth.RegisterThenLogin | src/app/lib/auth.ts:18-82 | after a successful registration, logging in with the same password and the email in any case returns the id the registration reported, and the session carries it; any other non-empty password gives "Invalid Password" |
| Auth.GoogleSessionCarriesProviderId | src/app/lib/auth.ts:55-82 | after a first Google sign-in the session id is the provider's user id, while the record the callback creates gets a fresh `_id` and stores neither a `googleId` nor a password |
| Auth.SessionIdStable | src/app/lib/auth.ts:70-82 | later `jwt` calls without a user keep the id set at sign-in, so every later session reports it |
| Middleware.MatchAlternative | src/app/middleware.ts:13 | answers whether one lookahead alternative (literals and unescaped `.`) matches at the start of the text |
| Middleware.MatchPath | src/app/middleware.ts:13 | the position-by-position matcher agrees on every path with the pattern's reading as a predicate on paths |
| Middleware.RootMatched | src/app/middleware.ts:13 | `/` is matched, since every lookahead alternative fails on empty text |
| Middleware.NextAssetsNotMatched | src/app/middleware.ts:13 | every path starting `/_next/static` or `/_next/image` is not matched |
| Middleware.PublicDirectoryNotMatched | src/app/middleware.ts:13 | every path starting `/public/` is not matched |
| Middleware.PublicWithoutSlashMatched | src/app/middleware.ts:13 | `/public` and `/publicity` are matched, since the exclusion needs the slash |
| Middleware.FaviconDotMatchesAnyChar | src/app/middleware.ts:13 | `favicon`, any non-line-terminator character, `ico`, then anything, is not matched |
| Middleware.FirstCharacterDecides | src/app/middleware.ts:13 | exclusion is tested only right after the leading `/`: a path whose first character there is none of `_ f p` is matched |
| Middleware.AuthRoutesMatched | src/app/middleware.ts:5-13 | the sign-in target `/login`, `/register`, `/api/auth/register`, the error target `/error` and `/videos/_next/static/x` all match the pattern |
| FileUpload.ValidateFile | src/app/components/FileUpload.tsx:25-35 | answers only for a video component and never answers false; sets only the two messages, the type message iff the MIME type lacks `video/` and the size message iff over 100 MB, once per failed check, the size message last |
| FileUpload.RoundedPercent | src/app/components/FileUpload.tsx:57-61 | the report is the integer nearest to 100·loaded/total with halves rounded up, NaN for 0/0 and Infinity for a positive amount over zero |
| FileUpload.PercentInRange | src/app/components/FileUpload.tsx:59-60 | with 0 ≤ loaded ≤ total and total > 0 the report is a whole number in 0..100 |
| FileUpload.PercentMonotone | src/app/components/FileUpload.tsx:59-60 | more bytes sent never lowers the report |
| FileUpload.ProgressEffects | src/app/components/FileUpload.tsx:57-62 | no reports without `onProgress`; every report is the rounded percentage of some length-computable event; with `onProgress`, every length-computable event is reported |
| FileUpload.ComputableMembers | src/app/components/FileUpload.tsx:58 | the events the handler acts on are exactly the length-computable ones, and no more than all events |
| FileUpload.ProgressInEventOrder | src/app/components/FileUpload.tsx:57-61 | for every run of events: with `onProgress`, the reports are exactly one per length-computable event, in event order, each the rounded percentage of its event; without it, none |
| FileUpload.HandleFileChange | src/app/components/FileUpload.tsx:37-73 | with no file or a non-video component nothing happens; otherwise `validateFile`'s own messages come first, unchanged, then `uploading` on, `error` cleared and the auth fetch, and `uploading` off last |
| FileUpload.UploadWork | src/app/components/FileUpload.tsx:46-69 | the body of the `try` block after the fetch, and its `catch`, never touch `uploading` or `error`; the upload starts exactly when the fetch succeeded |
| FileUpload.InFlightWhileUploading | src/app/components/FileUpload.tsx:43-69 | past the gate, from any earlier state, every auth fetch, upload start, progress report, `onSuccess` call and failure log happens while `uploading` is true and `error` is null |
| FileUpload.GateStopsEarly | src/app/components/FileUpload.tsx:39-41 | with no file, or a component not typed "video", the handler does nothing and the state is unchanged |
| FileUpload.VideoAlwaysUploads | src/app/components/FileUpload.tsx:25-50 | a video component fetches auth parameters and starts the upload whatever the file's type and size |
| FileUpload.HandlerEndsIdle | src/app/components/FileUpload.tsx:43-72 | after a handler run past the gate, from any state, `uploading` is false and `error` is null |
| FileUpload.OnSuccessOnce | src/app/components/FileUpload.tsx:46-72 | `onSuccess` is called exactly once when the upload resolves, never when it throws or the gate stops the handler |
| FileUpload.ReportsComeFromUpload | src/app/components/FileUpload.tsx:50-63 | progress reports appear only in a run past the gate whose upload ran, and come from its events |
| FileUpload.ProgressReportsBounded | src/app/components/FileUpload.tsx:57-61 | every progress report needs `onProgress`, and lies in 0..100 when events never exceed their total |
| FileUpload.Accept | src/app/components/FileUpload.tsx:80 | `accept` is `video/*` exactly for a video component, otherwise `image/*` |
| FileUpload.AcceptMatchesValidation | src/app/components/FileUpload.tsx:25-41 | the picker offers videos exactly when `validateFile` answers, and a component whose picker offers images does nothing on a change event, whatever its callbacks and the network do |

## Left out

- Database I/O: `dbConnect`, connection failures and their 500 responses are not modelled. Neither is the concurrent find-then-create race. In this sequential model the unique index is a check inside `Create`.
- RegisterRoute.Post: the 500 branch after a failed `create` exists in the model. Under the lower-casing-lookup assumption it is unreachable, because the duplicate check has already caught any clash.
- Timestamps (`createdAt`, `updatedAt`) are not modelled.
- Text.Lower: lower-cases ASCII letters only. JavaScript's `toLowerCase` also maps non-ASCII letters.
- Passwords.Matches: treats bcrypt as collision-free. It ignores the library's 72-byte truncation and the library's own handling of a null password, which may throw rather than answer false.
- Passwords.MatchesDeterminesPassword and Auth.RegisterThenLogin (its clause that any other password gives "Invalid Password") rest on that collision-free reading. With bcrypt, two passwords that share their first 72 bytes match the same digest.
- Passwords.DoubleHashMatchesNothing: a password is modelled as a typed text, never as the text of a digest. With real bcrypt, submitting the 60-character text of the inner digest as a password would match the double hash; that case is not modelled.
- JSON field values of other types than strings are not modelled. A body that is not valid JSON, or is `null`, makes the handler throw: that is the 500 case (`None`). A JSON number, string, boolean or array destructures without throwing and has neither field: that is `Some(Request(None, None))`, which gets 400 "Email and Password are required".
- A Google profile without an email is not modelled. An empty email is modelled, and makes `create` throw.
- next-auth internals are not modelled: token signing, expiry enforcement, cookies, the OAuth handshake, and the `withAuth` redirect mechanics. The 30-day `maxAge` is kept only as the constant `Auth.SessionMaxAge`.
- Middleware.Matched: states only which paths `config.matcher` selects. `withAuth` itself lets some matched paths through without a session (its configured sign-in and error pages, among others); those exemptions belong to next-auth and are not modelled, so "matched" does not mean "redirected when signed out".
- Middleware.MatchPath: characters are Unicode code points, while a JavaScript `.` without the `u` flag matches one UTF-16 code unit. The two readings differ only for characters outside the Basic Multilingual Plane; the request paths the matcher sees are percent-encoded ASCII, where they agree.
- Next.js's rewriting of middleware matchers (the `_next/data` prefix and the trailing `.json` variant) is not modelled. Neither is whether Next.js loads a middleware file at this location.
- FileUpload.RoundedPercent: computes the exact rational percentage. JavaScript's floating-point division can round a value sitting on a half the other way.
- Overlapping change events are not modelled. The file input stays enabled during an upload, so a second selection starts a second handler run while the first is in flight, and the first run's `finally` turns `uploading` off while the second upload is still running. The model treats each change event as running to completion alone.
- The ImageKit SDK, environment variables and the `/api/auth/imagekit-auth` response format are not modelled. Their only effect is whether the upload runs and resolves, which is the `Transfer` parameter.
- Page components and the API client wrapper are not part of this model.

=== FILE: auth.dfy ===
/** The authentication options: the credentials provider's `authorize`, the
    `signIn` callback (which creates a record on first Google sign-in), the
    `jwt` and `session` callbacks that carry the user id into the session,
    and the configured pages and session lifetime. */
module Auth {
  import opened Wrappers
  import opened Text
  import opened ObjectIds
  import opened Passwords
  import opened UserModel
  import RegisterRoute

  /** What the login form submits; `authorize` may also receive no credentials at all. */
  datatype Credentials = Credentials(email: Option<string>, password: Option<string>)

  /** The user object handed to the callbacks: the one `authorize` returns,
      or the profile an OAuth provider reports. */
  datatype AuthUser = AuthUser(id: string, email: string)

  const ErrMissingFields: string := "Email and Password are required"
  const ErrNoUser: string := "No user found with the given email"
  const ErrInvalidPassword: string := "Invalid Password"

  /** Where sign-in and sign-in errors are sent. */
  const SignInPage: string := "/login"
  const ErrorPage: string := "/login"

  /** The session's maximum age, in seconds (30 days). */
  const SessionMaxAge: nat := 30 * 24 * 60 * 60

  /** The credentials provider's `authorize`. It only reads the collection,
      and an error it throws is rethrown unchanged. */
  function Authorize(s: Store, creds: Option<Credentials>): (r: Result<AuthUser, string>)
    ensures !(creds.Some? && Truthy(creds.value.email) && Truthy(creds.value.password))
      <==> r == Err(ErrMissingFields)
    ensures r == Err(ErrNoUser)
      <==> creds.Some? && Truthy(creds.value.email) && Truthy(creds.value.password)
           && EmailKey(creds.value.email.value) !in s.users
    ensures r == Err(ErrInvalidPassword)
      <==> creds.Some? && Truthy(creds.value.email) && Truthy(creds.value.password)
           && EmailKey(creds.value.email.value) in s.users
           && !Compare(creds.value.password.value, s.users[EmailKey(creds.value.email.value)].password)
    ensures r.Ok?
      <==> creds.Some? && Truthy(creds.value.email) && Truthy(creds.value.password)
           && EmailKey(creds.value.email.value) in s.users
           && Compare(creds.value.password.value, s.users[EmailKey(creds.value.email.value)].password)
    ensures r.Ok? ==>
      var u := s.users[EmailKey(creds.value.email.value)];
      r.value == AuthUser(IdString(u.id), u.email)
  {
    if creds.None? || !Truthy(creds.value.email) || !Truthy(creds.value.password) then
      Err(ErrMissingFields)
    else
      match FindByEmail(s, creds.value.email.value)
      case None => Err(ErrNoUser)
      case Some(u) =>
        if !Compare(creds.value.password.value, u.password) then Err(ErrInvalidPassword)
        else Ok(AuthUser(IdString(u.id), u.email))
  }

  /** The provider an attempt came through, as next-auth reports it in `account`. */
  datatype Account = Account(provider: string)

  const GoogleProvider: string := "google"

  predicate IsGoogle(account: Option<Account>) {
    account.Some? && account.value.provider == GoogleProvider
  }

  /** The `signIn` callback. For Google it creates `{email, password: null}`
      when no document has the email; any other provider leaves the collection
      alone. It answers `true` whenever it returns; a failing `create` throws
      (modelled as `Err`). */
  function SignIn(s: Store, user: AuthUser, account: Option<Account>, salt: nat): (r: Result<(bool, Store), DbError>)
    ensures r.Ok? ==> r.value.0
    ensures !IsGoogle(account) ==> r == Ok((true, s))
    ensures IsGoogle(account) && EmailKey(user.email) in s.users ==> r == Ok((true, s))
    ensures IsGoogle(account) && EmailKey(user.email) !in s.users && user.email != [] ==>
      && r.Ok?
      && var k := EmailKey(user.email);
      && r.value.1.users == s.users[k := User(s.nextId, k, None, None)]
    ensures Valid(s) && IsGoogle(account) && user.email == [] ==> r == Err(ValidationError("email"))
    ensures Valid(s) && r.Ok? ==> Valid(r.value.1)
  {
    if !IsGoogle(account) then Ok((true, s))
    else if FindByEmail(s, user.email).Some? then Ok((true, s))
    else
      match Create(s, NewUser(user.email, None, None), salt)
      case Err(e) => Err(e)
      case Ok((s', _)) => Ok((true, s'))
  }

  /** The claims of the session token that the callbacks touch. */
  datatype Token = Token(sub: Option<string>, email: Option<string>, id: Option<string>)

  /** The `jwt` callback: `token.id = user.id || token.id` when a user is
      present (only at sign-in); otherwise the token is returned unchanged. */
  function Jwt(token: Token, user: Option<AuthUser>): (t: Token)
    ensures t.sub == token.sub && t.email == token.email
    ensures user.Some? && user.value.id != [] ==> t.id == Some(user.value.id)
    ensures user.None? || user.value.id == [] ==> t == token
  {
    if user.Some? then token.(id := if user.value.id != [] then Some(user.value.id) else token.id)
    else token
  }

  datatype SessionUser = SessionUser(name: Option<string>, email: Option<string>, image: Option<string>, id: Option<string>)

  datatype Session = Session(user: Option<SessionUser>, expires: string)

  /** The `session` callback: copies `token.id` into `session.user.id` when the
      session has a user; nothing else changes. */
  function SessionOf(session: Session, token: Token): (r: Session)
    ensures r.expires == session.expires
    ensures r.user.Some? <==> session.user.Some?
    ensures r.user.Some? ==>
      && r.user.value.id == token.id
      && r.user.value.(id := session.user.value.id) == session.user.value
  {
    if session.user.Some? then session.(user := Some(session.user.value.(id := token.id)))
    else session
  }

  /** A password login end to end: `authorize`, then `signIn` (a no-op for
      credentials), then `jwt` on a fresh token and `session`. The collection
      is only read. */
  function CredentialsLogin(s: Store, creds: Option<Credentials>, session: Session): (r: (Result<Session, string>, Store))
    ensures r.1 == s
    ensures r.0.Err? <==> Authorize(s, creds).Err?
    ensures r.0.Err? ==> r.0.error == Authorize(s, creds).error
    ensures r.0.Ok? && session.user.Some? ==>
      r.0.value.user.Some? && r.0.value.user.value.id == Some(Authorize(s, creds).value.id)
  {
    match Authorize(s, creds)
    case Err(e) => (Err(e), s)
    case Ok(u) =>
      // next-auth's initial token carries the user's id as `sub`
      var token := Jwt(Token(Some(u.id), Some(u.email), None), Some(u));
      (Ok(SessionOf(session, token)), s)
  }

  /** Register, then log in with the same password: the login succeeds and the
      session carries the id the registration reported, however the email's
      letters are cased at login; any other password is refused. */
  lemma RegisterThenLogin(s: Store, email: string, login: string, pw: string, other: string, salt: nat, session: Session)
    requires email != [] && pw != [] && other != pw
    requires Lower(login) == Lower(email)
    requires EmailKey(email) !in s.users
    requires session.user.Some?
    ensures var (resp, s1) := RegisterRoute.Post(s, Some(RegisterRoute.Request(Some(email), Some(pw))), salt);
      && resp.status == 200
      && Authorize(s1, Some(Credentials(Some(login), Some(pw)))) == Ok(AuthUser(resp.body.user.id, EmailKey(email)))
      && CredentialsLogin(s1, Some(Credentials(Some(login), Some(pw))), session).0.value.user.value.id == Some(resp.body.user.id)
      && (other != [] ==> Authorize(s1, Some(Credentials(Some(login), Some(other)))) == Err(ErrInvalidPassword))
  {
    RegisterRoute.RegisterSucceedsOnFreshEmail(s, email, pw, salt);
    var (resp, s1) := RegisterRoute.Post(s, Some(RegisterRoute.Request(Some(email), Some(pw))), salt);
    var k := EmailKey(email);
    assert EmailKey(login) == k;
    assert login != [] by { assert |login| == |Lower(login)| == |Lower(email)| == |email|; }
    var u := s1.users[k];
    if other != [] {
      assert !Matches(other, u.password.value);
    }
  }

  /** Repeated Google sign-ins with the same email create at most one record. */
  lemma GoogleSignInIdempotent(s: Store, user: AuthUser, salt1: nat, salt2: nat)
    requires SignIn(s, user, Some(Account(GoogleProvider)), salt1).Ok?
    ensures var s1 := SignIn(s, user, Some(Account(GoogleProvider)), salt1).value.1;
      SignIn(s1, user, Some(Account(GoogleProvider)), salt2) == Ok((true, s1))
  {
  }

  /** A record created by Google sign-in has an email, no password and no
      `googleId`, and no password login for it ever succeeds. */
  lemma GoogleAccountRefusesPasswords(s: Store, user: AuthUser, salt: nat, login: string, pw: string)
    requires EmailKey(user.email) !in s.users && user.email != []
    requires Lower(login) == Lower(user.email)
    ensures var s1 := SignIn(s, user, Some(Account(GoogleProvider)), salt).value.1;
      var u := s1.users[EmailKey(user.email)];
      && u.email == EmailKey(user.email) && u.password.None? && u.googleId.None?
      && Authorize(s1, Some(Credentials(Some(login), Some(pw)))).Err?
  {
  }

  /** After a first Google sign-in the session id is the provider's user id,
      while the record the callback creates gets a fresh `_id` and keeps no
      Google id: nothing in the collection links the two. */
  lemma GoogleSessionCarriesProviderId(s: Store, user: AuthUser, salt: nat, token: Token, session: Session)
    requires user.id != [] && user.email != []
    requires session.user.Some?
    requires EmailKey(user.email) !in s.users
    ensures SessionOf(session, Jwt(token, Some(user))).user.value.id == Some(user.id)
    ensures var r := SignIn(s, user, Some(Account(GoogleProvider)), salt);
      && r.Ok?
      && var stored := r.value.1.users[EmailKey(user.email)];
      && stored.id == s.nextId && stored.googleId.None? && stored.password.None?
  {
  }

  /** Requests after sign-in carry no user: `jwt` keeps the id it stored, so
      every later session reports the same id. */
  lemma SessionIdStable(token: Token, user: AuthUser, session: Session)
    requires user.id != [] && session.user.Some?
    ensures var t := Jwt(token, Some(user));
      SessionOf(session, Jwt(t, None)).user.value.id == Some(user.id)
  {
  }
}

=== FILE: file_upload.dfy ===
/** The file-upload component: `validateFile`, the gate and state changes of
    `handleFileChange`, the progress percentage, and the `accept` attribute.

    A change event is modelled as the sequence of effects the handler produces
    (state updates, the network steps, calls to the parent's callbacks); the
    component's state afterwards is those effects applied in order. The
    network's behaviour is a parameter (`Transfer`). */
module FileUpload {
  import opened Wrappers
  import opened Text

  datatype FileType = Image | Video

  /** The props that steer behaviour: the declared file type and whether an
      `onProgress` callback was supplied. `onSuccess` is always supplied. */
  datatype Props = Props(fileType: Option<FileType>, hasOnProgress: bool)

  datatype File = File(name: string, mime: string, size: nat)

  /** The component state: `uploading` and `error`. */
  datatype State = State(uploading: bool, error: Option<string>)

  const Initial: State := State(false, None)

  /** The size limit for videos, in bytes (100 MB). */
  const MaxVideoBytes: nat := 100 * 1024 * 1024

  const BadTypeMessage: string := "Please upload a valid video file"
  const TooLargeMessage: string := "Please upload a video file less than 100MB"

  /** The result of one progress computation, as JavaScript numbers go. */
  datatype Percent = Whole(n: int) | NaN | Infinity

  /** Something the handler does, in order. */
  datatype Effect =
    | SetError(message: Option<string>)
    | SetUploading(on: bool)
    | FetchAuthParams
    | StartUpload
    | ReportProgress(percent: Percent)
    | CallOnSuccess
    | LogUploadFailure

  /** A progress event from the upload. */
  datatype ProgressEvent = ProgressEvent(lengthComputable: bool, loaded: nat, total: nat)

  /** How the network behaves: the authentication-parameter fetch fails (no
      upload starts), or the upload runs, emits progress events and then
      resolves or throws. */
  datatype Transfer = AuthFetchFailed | UploadRan(progress: seq<ProgressEvent>, resolved: bool)

  /** `validateFile`: `verdict` is `Some(true)` for a video-typed component and
      `None` (`undefined`) otherwise; `effects` are the `setError` calls it makes. */
  datatype Validation = Validation(verdict: Option<bool>, effects: seq<Effect>)

  function ValidateFile(fileType: Option<FileType>, f: File): (v: Validation)
    // only a video component answers, and it never answers false
    ensures v.verdict.Some? <==> fileType == Some(Video)
    ensures v.verdict != Some(false)
    ensures fileType != Some(Video) ==> v.effects == []
    ensures forall e :: e in v.effects ==> e == SetError(Some(BadTypeMessage)) || e == SetError(Some(TooLargeMessage))
    // one message per failed check, the size message last
    ensures fileType == Some(Video) ==>
      |v.effects| == (if !StartsWith(f.mime, "video/") then 1 else 0) + (if f.size > MaxVideoBytes then 1 else 0)
    ensures fileType == Some(Video) ==>
      && (SetError(Some(BadTypeMessage)) in v.effects <==> !StartsWith(f.mime, "video/"))
      && (SetError(Some(TooLargeMessage)) in v.effects <==> f.size > MaxVideoBytes)
      && (f.size > MaxVideoBytes ==> v.effects[|v.effects| - 1] == SetError(Some(TooLargeMessage)))
  {
    if fileType == Some(Video) then
      var typeErr := if !StartsWith(f.mime, "video/") then [SetError(Some(BadTypeMessage))] else [];
      var sizeErr := if f.size > MaxVideoBytes then [SetError(Some(TooLargeMessage))] else [];
      Validation(Some(true), typeErr + sizeErr)
    else
      Validation(None, [])
  }

  /** `Math.round(loaded / total * 100)` computed exactly: the integer nearest
      to the true percentage, halves rounded up; `NaN` for 0/0 and `Infinity`
      for a positive amount over a zero total. */
  function RoundedPercent(loaded: nat, total: nat): (p: Percent)
    ensures total == 0 && loaded == 0 <==> p == NaN
    ensures total == 0 && loaded > 0 <==> p == Infinity
    ensures total > 0 <==> p.Whole?
    ensures total > 0 ==> 2 * p.n * total <= 200 * loaded + total < 2 * (p.n + 1) * total
  {
    if total == 0 then (if loaded == 0 then NaN else Infinity)
    else Whole((200 * loaded + total) / (2 * total))
  }

  /** A positive factor keeps the sign of a product. */
  lemma SignOfProduct(x: int, t: int)
    requires t > 0
    ensures x * t <= 0 ==> x <= 0
    ensures x * t < 0 ==> x < 0
  {
    if x > 0 {
      assert x * t >= t;
    }
  }

  /** A transfer that has sent part of its known total reports a whole percentage from 0 to 100. */
  lemma PercentInRange(loaded: nat, total: nat)
    requires 0 < total && loaded <= total
    ensures RoundedPercent(loaded, total).Whole?
    ensures 0 <= RoundedPercent(loaded, total).n <= 100
  {
    var n := RoundedPercent(loaded, total).n;
    assert (2 * n - 201) * total == 2 * n * total - 201 * total;
    SignOfProduct(2 * n - 201, total);
  }

  /** More bytes sent never lowers the reported percentage. */
  lemma PercentMonotone(a: nat, b: nat, total: nat)
    requires 0 < total && a <= b
    ensures RoundedPercent(a, total).n <= RoundedPercent(b, total).n
  {
    var na := RoundedPercent(a, total).n;
    var nb := RoundedPercent(b, total).n;
    assert 2 * na * total < 2 * (nb + 1) * total;
    assert (na - nb - 1) * total == na * total - (nb + 1) * total;
    SignOfProduct(na - nb - 1, total);
  }

  /** The `onProgress` handler over a run of events: one report per event with
      `lengthComputable` set, and none at all without an `onProgress` callback. */
  function ProgressEffects(hasOnProgress: bool, events: seq<ProgressEvent>): (es: seq<Effect>)
    ensures !hasOnProgress ==> es == []
    ensures |es| <= |events|
    ensures forall e :: e in es ==>
      && e.ReportProgress?
      && exists ev :: ev in events && ev.lengthComputable && e.percent == RoundedPercent(ev.loaded, ev.total)
    // with a callback, every length-computable event is reported
    ensures hasOnProgress ==>
      forall ev :: ev in events && ev.lengthComputable ==> ReportProgress(RoundedPercent(ev.loaded, ev.total)) in es
  {
    if events == [] then []
    else
      var ev := events[0];
      var head := if ev.lengthComputable && hasOnProgress then [ReportProgress(RoundedPercent(ev.loaded, ev.total))] else [];
      var tail := ProgressEffects(hasOnProgress, events[1..]);
      assert forall x :: x in events[1..] ==> x in events;
      assert forall x :: x in events ==> x == ev || x in events[1..];
      head + tail
  }

  /** One report per event, in event order: what the `onProgress` handler
      produces when every event is length-computable. */
  function ReportsInOrder(events: seq<ProgressEvent>): (es: seq<Effect>)
    ensures |es| == |events|
    ensures forall i :: 0 <= i < |events| ==> es[i] == ReportProgress(RoundedPercent(events[i].loaded, events[i].total))
  {
    seq(|events|, i requires 0 <= i < |events| => ReportProgress(RoundedPercent(events[i].loaded, events[i].total)))
  }

  /** The length-computable events of a run, in their order. */
  function Computable(events: seq<ProgressEvent>): (c: seq<ProgressEvent>)
    decreases |events|
  {
    if events == [] then []
    else (if events[0].lengthComputable then [events[0]] else []) + Computable(events[1..])
  }

  /** Exactly the length-computable events survive, and nothing else. */
  lemma {:induction false} ComputableMembers(events: seq<ProgressEvent>)
    ensures forall ev :: ev in Computable(events) <==> ev in events && ev.lengthComputable
    ensures |Computable(events)| <= |events|
    decreases |events|
  {
    if events != [] {
      ComputableMembers(events[1..]);
      assert forall x :: x in events ==> x == events[0] || x in events[1..];
      assert forall x :: x in events[1..] ==> x in events;
    }
  }

  /** With a callback, there is one report per length-computable event, in
      the order of the events; without one, none. */
  lemma {:induction false} ProgressInEventOrder(hasOnProgress: bool, events: seq<ProgressEvent>)
    ensures ProgressEffects(hasOnProgress, events)
      == if hasOnProgress then ReportsInOrder(Computable(events)) else []
    decreases |events|
  {
    if hasOnProgress && events != [] {
      ProgressInEventOrder(true, events[1..]);
      if events[0].lengthComputable {
        ProgressFirstReport(events);
        assert Computable(events) == [events[0]] + Computable(events[1..]);
        ReportsFirst(Computable(events));
        assert Computable(events)[1..] == Computable(events[1..]);
      } else {
        ProgressSkip(events);
        assert Computable(events) == Computable(events[1..]);
      }
    }
  }

  lemma ProgressFirstReport(events: seq<ProgressEvent>)
    requires events != [] && events[0].lengthComputable
    ensures ProgressEffects(true, events)
      == [ReportProgress(RoundedPercent(events[0].loaded, events[0].total))] + ProgressEffects(true, events[1..])
  {
  }

  lemma ProgressSkip(events: seq<ProgressEvent>)
    requires events != [] && !events[0].lengthComputable
    ensures ProgressEffects(true, events) == ProgressEffects(true, events[1..])
  {
    assert [] + ProgressEffects(true, events[1..]) == ProgressEffects(true, events[1..]);
  }

  lemma ReportsFirst(events: seq<ProgressEvent>)
    requires events != []
    ensures ReportsInOrder(events)
      == [ReportProgress(RoundedPercent(events[0].loaded, events[0].total))] + ReportsInOrder(events[1..])
  {
    var head := ReportProgress(RoundedPercent(events[0].loaded, events[0].total));
    var rhs := [head] + ReportsInOrder(events[1..]);
    forall i | 0 <= i < |events| ensures ReportsInOrder(events)[i] == rhs[i] {
      if i > 0 {
        assert rhs[i] == ReportsInOrder(events[1..])[i - 1];
      }
    }
  }

  /** `handleFileChange`: the effects of one change event. With no file, or a
      file `validateFile` does not answer `true` for, nothing after
      validation happens. Otherwise: uploading on, error cleared, fetch the
      auth parameters, upload, call `onSuccess` or log, uploading off. */
  function HandleFileChange(props: Props, file: Option<File>, transfer: Transfer): (es: seq<Effect>)
    // past the gate, validation messages first, then uploading on, error cleared, and uploading off last
    ensures !Proceeds(props, file) ==> es == []
    ensures Proceeds(props, file) ==>
      var n := |ValidateFile(props.fileType, file.value).effects|;
      && |es| >= n + 5
      && es[..n] == ValidateFile(props.fileType, file.value).effects
      && es[n] == SetUploading(true) && es[n + 1] == SetError(None) && es[n + 2] == FetchAuthParams
      && es[|es| - 1] == SetUploading(false)
  {
    if file.None? then []
    else
      var v := ValidateFile(props.fileType, file.value);
      if v.verdict != Some(true) then v.effects
      else
        v.effects + [SetUploading(true), SetError(None), FetchAuthParams]
        + UploadWork(props.hasOnProgress, transfer) + [SetUploading(false)]
  }

  /** What happens between fetching the auth parameters and the `finally`
      block: nothing more if the fetch failed, otherwise the upload, its
      progress reports, and `onSuccess` or the failure log. None of it
      touches the component state. */
  function UploadWork(hasOnProgress: bool, transfer: Transfer): (w: seq<Effect>)
    ensures forall e :: e in w ==> !e.SetError? && !e.SetUploading?
    ensures w != [] && (transfer.UploadRan? <==> w[0] == StartUpload)
  {
    match transfer
    case AuthFetchFailed => [LogUploadFailure]
    case UploadRan(progress, resolved) =>
      [StartUpload] + ProgressEffects(hasOnProgress, progress)
      + (if resolved then [CallOnSuccess] else [LogUploadFailure])
  }

  /** One effect on the component state. */
  function Step(st: State, e: Effect): (r: State) {
    match e
    case SetError(m) => st.(error := m)
    case SetUploading(b) => st.(uploading := b)
    case _ => st
  }

  /** The component state after a run of effects. */
  function Apply(st: State, es: seq<Effect>): (r: State)
    decreases |es|
  {
    if es == [] then st else Apply(Step(st, es[0]), es[1..])
  }

  /** Effects applied in two runs are the effects applied in one. */
  lemma {:induction false} ApplyConcat(st: State, a: seq<Effect>, b: seq<Effect>)
    ensures Apply(st, a + b) == Apply(Apply(st, a), b)
    decreases |a|
  {
    if a == [] {
      assert a + b == b;
    } else {
      assert (a + b)[0] == a[0];
      assert (a + b)[1..] == a[1..] + b;
      ApplyConcat(Step(st, a[0]), a[1..], b);
    }
  }

  /** Effects that set neither field leave the state alone. */
  lemma {:induction false} ApplyInert(st: State, es: seq<Effect>)
    requires forall e :: e in es ==> !e.SetError? && !e.SetUploading?
    ensures Apply(st, es) == st
    decreases |es|
  {
    if es != [] {
      assert es[0] in es;
      assert forall e :: e in es[1..] ==> e in es;
      ApplyInert(Step(st, es[0]), es[1..]);
    }
  }

  /** How many times `onSuccess` is called in a run of effects. */
  function SuccessCalls(es: seq<Effect>): (n: nat)
    decreases |es|
  {
    if es == [] then 0 else (if es[0] == CallOnSuccess then 1 else 0) + SuccessCalls(es[1..])
  }

  lemma {:induction false} SuccessCallsConcat(a: seq<Effect>, b: seq<Effect>)
    ensures SuccessCalls(a + b) == SuccessCalls(a) + SuccessCalls(b)
    decreases |a|
  {
    if a == [] {
      assert a + b == b;
    } else {
      assert (a + b)[0] == a[0];
      assert (a + b)[1..] == a[1..] + b;
      SuccessCallsConcat(a[1..], b);
    }
  }

  lemma {:induction false} NoSuccessCalls(es: seq<Effect>)
    requires forall e :: e in es ==> e != CallOnSuccess
    ensures SuccessCalls(es) == 0
    decreases |es|
  {
    if es != [] {
      assert es[0] in es;
      assert forall e :: e in es[1..] ==> e in es;
      NoSuccessCalls(es[1..]);
    }
  }

  /** Whether the handler gets past its early return. */
  predicate Proceeds(props: Props, file: Option<File>) {
    file.Some? && props.fileType == Some(Video)
  }

  /** No file selected, or a component not typed "video": nothing happens —
      no state change, no fetch, no upload. */
  lemma GateStopsEarly(props: Props, file: Option<File>, transfer: Transfer, st: State)
    requires !Proceeds(props, file)
    ensures HandleFileChange(props, file, transfer) == []
    ensures Apply(st, HandleFileChange(props, file, transfer)) == st
  {
  }

  /** A video-typed component always uploads, whatever the file's type and
      size: validation never blocks, and the upload starts unless fetching the
      auth parameters fails. */
  lemma VideoAlwaysUploads(props: Props, f: File, transfer: Transfer)
    requires props.fileType == Some(Video)
    ensures FetchAuthParams in HandleFileChange(props, Some(f), transfer)
    ensures transfer.UploadRan? ==> StartUpload in HandleFileChange(props, Some(f), transfer)
  {
    var es := HandleFileChange(props, Some(f), transfer);
    var v := ValidateFile(props.fileType, f);
    assert es[|v.effects| + 2] == FetchAuthParams;
    if transfer.UploadRan? {
      assert es[|v.effects| + 3] == StartUpload;
    }
  }

  /** After a change event that gets past the gate, whatever the earlier
      state: `uploading` is off again and `error` is null, so validation
      messages never survive the start of an upload. */
  lemma {:induction false} HandlerEndsIdle(props: Props, f: File, transfer: Transfer, st: State)
    requires props.fileType == Some(Video)
    ensures Apply(st, HandleFileChange(props, Some(f), transfer)) == Initial
  {
    var v := ValidateFile(props.fileType, f);
    var work := UploadWork(props.hasOnProgress, transfer);
    var pre := v.effects + [SetUploading(true), SetError(None), FetchAuthParams];
    assert HandleFileChange(props, Some(f), transfer) == pre + work + [SetUploading(false)];
    ApplyConcat(st, pre + work, [SetUploading(false)]);
    ApplyConcat(st, pre, work);
    ApplyConcat(st, v.effects, [SetUploading(true), SetError(None), FetchAuthParams]);
    var mid := Apply(st, pre);
    assert mid == State(true, None);
    ApplyInert(mid, work);
  }

  /** The effects that happen inside the handler's `try` block: the network
      steps, the progress reports, `onSuccess` and the failure log. */
  predicate InFlight(e: Effect) {
    e.FetchAuthParams? || e.StartUpload? || e.ReportProgress? || e.CallOnSuccess? || e.LogUploadFailure?
  }

  /** Past the gate, every fetch, upload, progress report, `onSuccess` call
      and failure log happens while `uploading` is on and `error` is null,
      whatever the earlier state. */
  lemma {:induction false} InFlightWhileUploading(props: Props, f: File, transfer: Transfer, st: State)
    requires props.fileType == Some(Video)
    ensures var es := HandleFileChange(props, Some(f), transfer);
      forall i :: 0 <= i < |es| && InFlight(es[i]) ==> Apply(st, es[..i]) == State(true, None)
  {
    HandlerShape(props, f, transfer);
    InFlightAfterStart(st, ValidateFile(props.fileType, f).effects,
      [FetchAuthParams] + UploadWork(props.hasOnProgress, transfer), [SetUploading(false)]);
  }

  /** Past the gate, the handler's effects in four parts: validation
      messages, the start of the `try` block, its network part, `finally`. */
  lemma HandlerShape(props: Props, f: File, transfer: Transfer)
    requires props.fileType == Some(Video)
    ensures HandleFileChange(props, Some(f), transfer)
      == ValidateFile(props.fileType, f).effects + [SetUploading(true), SetError(None)]
        + ([FetchAuthParams] + UploadWork(props.hasOnProgress, transfer)) + [SetUploading(false)]
  {
  }

  /** A run of error messages, uploading on, error cleared, then an inert
      stretch: every in-flight effect up to the end of the stretch finds
      `uploading` on and `error` null. */
  lemma InFlightAfterStart(st: State, msgs: seq<Effect>, tail: seq<Effect>, last: seq<Effect>)
    requires forall e :: e in msgs ==> e.SetError?
    requires forall e :: e in tail ==> !e.SetError? && !e.SetUploading?
    ensures var es := msgs + [SetUploading(true), SetError(None)] + tail + last;
      forall i :: 0 <= i < |msgs| + 2 + |tail| && InFlight(es[i]) ==> Apply(st, es[..i]) == State(true, None)
  {
    var pre := msgs + [SetUploading(true), SetError(None)];
    ApplyConcat(st, msgs, [SetUploading(true), SetError(None)]);
    InertTail(st, pre, tail, last);
    assert forall i :: 0 <= i < |pre| ==> pre[i].SetError? || pre[i].SetUploading? by {
      assert forall i :: 0 <= i < |msgs| ==> msgs[i] in msgs;
    }
  }

  /** Every prefix of a run that stops inside an inert stretch leaves the
      state where the stretch began. */
  lemma InertTail(st: State, pre: seq<Effect>, tail: seq<Effect>, last: seq<Effect>)
    requires forall e :: e in tail ==> !e.SetError? && !e.SetUploading?
    ensures forall i :: |pre| <= i <= |pre| + |tail| ==> Apply(st, (pre + tail + last)[..i]) == Apply(st, pre)
  {
    forall i | |pre| <= i <= |pre| + |tail|
      ensures Apply(st, (pre + tail + last)[..i]) == Apply(st, pre)
    {
      var k := i - |pre|;
      assert (pre + tail + last)[..i] == pre + tail[..k];
      assert forall e :: e in tail[..k] ==> e in tail;
      ApplyConcat(st, pre, tail[..k]);
      ApplyInert(Apply(st, pre), tail[..k]);
    }
  }

  /** `onSuccess` is called exactly once when the upload resolves, and never
      when fetching or uploading throws or the gate stops the handler. */
  lemma {:induction false} OnSuccessOnce(props: Props, file: Option<File>, transfer: Transfer)
    ensures SuccessCalls(HandleFileChange(props, file, transfer))
      == if Proceeds(props, file) && transfer.UploadRan? && transfer.resolved then 1 else 0
  {
    if !Proceeds(props, file) {
      assert SuccessCalls([]) == 0;
    } else {
      var v := ValidateFile(props.fileType, file.value);
      var pre := v.effects + [SetUploading(true), SetError(None), FetchAuthParams];
      var work := UploadWork(props.hasOnProgress, transfer);
      NoSuccessCalls(pre);
      NoSuccessCalls([SetUploading(false)]);
      assert HandleFileChange(props, file, transfer) == pre + work + [SetUploading(false)];
      SuccessCallsConcat(pre, work);
      SuccessCallsConcat(pre + work, [SetUploading(false)]);
      UploadWorkSuccessCalls(props.hasOnProgress, transfer);
    }
  }

  /** The upload part calls `onSuccess` once if the upload resolves, else never. */
  lemma UploadWorkSuccessCalls(hasOnProgress: bool, transfer: Transfer)
    ensures SuccessCalls(UploadWork(hasOnProgress, transfer))
      == if transfer.UploadRan? && transfer.resolved then 1 else 0
  {
    match transfer
    case AuthFetchFailed =>
      NoSuccessCalls([LogUploadFailure]);
    case UploadRan(progress, resolved) =>
      var prog := ProgressEffects(hasOnProgress, progress);
      NoSuccessCalls([StartUpload] + prog);
      var last := if resolved then [CallOnSuccess] else [LogUploadFailure];
      assert SuccessCalls(last) == if resolved then 1 else 0 by {
        assert last[1..] == [];
      }
      SuccessCallsConcat([StartUpload] + prog, last);
  }

  /** Progress reports of a handler run are reports of its upload's progress events. */
  lemma ReportsComeFromUpload(props: Props, file: Option<File>, transfer: Transfer)
    ensures forall e :: e in HandleFileChange(props, file, transfer) && e.ReportProgress? ==>
      && Proceeds(props, file) && transfer.UploadRan?
      && e in ProgressEffects(props.hasOnProgress, transfer.progress)
  {
    var es := HandleFileChange(props, file, transfer);
    if !Proceeds(props, file) {
      assert es == [];
    } else {
      var v := ValidateFile(props.fileType, file.value);
      var pre := v.effects + [SetUploading(true), SetError(None), FetchAuthParams];
      assert forall e :: e in pre ==> !e.ReportProgress?;
      match transfer
      case AuthFetchFailed =>
        assert es == pre + [LogUploadFailure] + [SetUploading(false)];
      case UploadRan(progress, resolved) =>
        var prog := ProgressEffects(props.hasOnProgress, progress);
        var last := if resolved then [CallOnSuccess] else [LogUploadFailure];
        assert UploadWork(props.hasOnProgress, transfer) == [StartUpload] + prog + last;
        assert es == pre + ([StartUpload] + prog + last) + [SetUploading(false)];
        forall e | e in es && e.ReportProgress?
          ensures e in prog
        {
          assert e !in pre && e !in last && e != StartUpload && e != SetUploading(false);
        }
    }
  }

  /** Every progress report of a handler run needs an `onProgress` callback
      and, when the events never report more bytes than their total, is a
      whole percentage from 0 to 100. */
  lemma ProgressReportsBounded(props: Props, file: Option<File>, transfer: Transfer)
    requires transfer.UploadRan? ==>
      forall ev :: ev in transfer.progress ==> 0 < ev.total && ev.loaded <= ev.total
    ensures forall e :: e in HandleFileChange(props, file, transfer) && e.ReportProgress? ==>
      props.hasOnProgress && e.percent.Whole? && 0 <= e.percent.n <= 100
  {
    forall e | e in HandleFileChange(props, file, transfer) && e.ReportProgress?
      ensures props.hasOnProgress && e.percent.Whole? && 0 <= e.percent.n <= 100
    {
      ReportsComeFromUpload(props, file, transfer);
      var ev :| ev in transfer.progress && ev.lengthComputable && e.percent == RoundedPercent(ev.loaded, ev.total);
      PercentInRange(ev.loaded, ev.total);
    }
  }

  /** The `accept` attribute of the file input. */
  function Accept(fileType: Option<FileType>): (a: string)
    ensures a == "video/*" <==> fileType == Some(Video)
    ensures a == "video/*" || a == "image/*"
  {
    if fileType == Some(Video) then "video/*" else "image/*"
  }

  /** The file picker offers videos exactly when `validateFile` answers, so a
      component whose picker offers images never uploads. */
  lemma AcceptMatchesValidation(props: Props, f: File, transfer: Transfer)
    ensures Accept(props.fileType) == "video/*" <==> ValidateFile(props.fileType, f).verdict == Some(true)
    ensures Accept(props.fileType) == "image/*" ==> HandleFileChange(props, Some(f), transfer) == []
  {
  }
}

=== FILE: middleware.dfy ===
/** The route guard's matcher: `config.matcher` selects the request paths the
    `withAuth` middleware runs on, by the pattern
    `/((?!_next/static|_next/image|favicon.ico|public/).*)`. Which matched
    paths `withAuth` then lets through on its own (its sign-in and error pages,
    for one) is not part of this model.

    The pattern is read with JavaScript regular-expression semantics, anchored
    at both ends and case-sensitive: a `/`, then a negative lookahead over four
    alternatives, then `.*`, where `.` is any character except a line
    terminator. The `.` inside `favicon.ico` is not escaped, so it too is the
    any-character class.

    A character here is a Unicode code point; JavaScript's `.` without the
    `u` flag consumes one UTF-16 code unit. Request paths reach the matcher
    percent-encoded, so they are ASCII and the two readings agree. */
module Middleware {

  /** Sign-in and error pages the middleware redirects to. */
  const SignInPage: string := "/login"
  const ErrorPage: string := "/error"

  /** One position of a lookahead alternative: a literal character or `.`. */
  datatype CharClass = Exact(c: char) | AnyChar

  type Pattern = seq<CharClass>

  /** Characters JavaScript's `.` does not match (no `s` flag). */
  predicate IsLineTerminator(c: char) {
    c == '\n' || c == '\r' || c == '\U{2028}' || c == '\U{2029}'
  }

  predicate ClassMatches(k: CharClass, c: char) {
    match k
    case Exact(e) => c == e
    case AnyChar => !IsLineTerminator(c)
  }

  function Literal(s: string): (p: Pattern)
    ensures |p| == |s|
    ensures forall i :: 0 <= i < |s| ==> p[i] == Exact(s[i])
  {
    seq(|s|, i requires 0 <= i < |s| => Exact(s[i]))
  }

  /** The four alternatives of the lookahead, in order. */
  const Exclusions: seq<Pattern> := [
    Literal("_next/static"),
    Literal("_next/image"),
    Literal("favicon") + [AnyChar] + Literal("ico"),
    Literal("public/")
  ]

  /** The alternative `p` matches at the start of `s`. */
  predicate PrefixMatches(p: Pattern, s: string) {
    |p| <= |s| && forall i :: 0 <= i < |p| ==> ClassMatches(p[i], s[i])
  }

  /** `.*` followed by the end anchor consumes `s` entirely. */
  predicate NoLineTerminator(s: string) {
    forall i :: 0 <= i < |s| ==> !IsLineTerminator(s[i])
  }

  /** The anchored pattern matches `path`: it starts with `/`, no lookahead
      alternative matches right after that `/`, and the rest holds no line
      terminator. */
  predicate Matched(path: string) {
    && |path| >= 1 && path[0] == '/'
    && NoLineTerminator(path[1..])
    && forall j :: 0 <= j < |Exclusions| ==> !PrefixMatches(Exclusions[j], path[1..])
  }

  /** Tries one lookahead alternative at the start of `s`, position by position. */
  method MatchAlternative(p: Pattern, s: string) returns (m: bool)
    ensures m == PrefixMatches(p, s)
  {
    if |p| > |s| {
      return false;
    }
    var i := 0;
    while i < |p|
      invariant 0 <= i <= |p|
      invariant forall j :: 0 <= j < i ==> ClassMatches(p[j], s[j])
    {
      if !ClassMatches(p[i], s[i]) {
        return false;
      }
      i := i + 1;
    }
    return true;
  }

  /** Runs the matcher on a request path: the leading `/`, the lookahead, then `.*$`. */
  method MatchPath(path: string) returns (matched: bool)
    ensures matched == Matched(path)
  {
    if |path| == 0 || path[0] != '/' {
      return false;
    }
    var rest := path[1..];
    var k := 0;
    while k < |Exclusions|
      invariant 0 <= k <= |Exclusions|
      invariant forall j :: 0 <= j < k ==> !PrefixMatches(Exclusions[j], rest)
    {
      var hit := MatchAlternative(Exclusions[k], rest);
      if hit {
        return false;
      }
      k := k + 1;
    }
    var i := 0;
    while i < |rest|
      invariant 0 <= i <= |rest|
      invariant forall j :: 0 <= j < i ==> !IsLineTerminator(rest[j])
    {
      if IsLineTerminator(rest[i]) {
        return false;
      }
      i := i + 1;
    }
    return true;
  }

  /** The root path is matched: every lookahead alternative fails on empty text. */
  lemma RootMatched()
    ensures Matched("/")
  {
    assert "/"[1..] == [];
  }

  /** A path whose text after the `/` starts with `_next/static` or `_next/image` is not matched. */
  lemma NextAssetsNotMatched(s: string)
    ensures !Matched("/_next/static" + s)
    ensures !Matched("/_next/image" + s)
  {
    var a := "/_next/static" + s;
    assert PrefixMatches(Exclusions[0], a[1..]) by {
      forall i | 0 <= i < |Exclusions[0]| ensures ClassMatches(Exclusions[0][i], a[1..][i]) {
        assert a[1..][i] == "_next/static"[i];
      }
    }
    var b := "/_next/image" + s;
    assert PrefixMatches(Exclusions[1], b[1..]) by {
      forall i | 0 <= i < |Exclusions[1]| ensures ClassMatches(Exclusions[1][i], b[1..][i]) {
        assert b[1..][i] == "_next/image"[i];
      }
    }
  }

  /** `/public/...` is not matched. */
  lemma PublicDirectoryNotMatched(s: string)
    ensures !Matched("/public/" + s)
  {
    var a := "/public/" + s;
    assert PrefixMatches(Exclusions[3], a[1..]) by {
      forall i | 0 <= i < |Exclusions[3]| ensures ClassMatches(Exclusions[3][i], a[1..][i]) {
        assert a[1..][i] == "public/"[i];
      }
    }
  }

  /** The `public/` exclusion needs its trailing slash: `/public` and `/publicity` are matched. */
  lemma PublicWithoutSlashMatched()
    ensures Matched("/public")
    ensures Matched("/publicity")
  {
    assert !PrefixMatches(Exclusions[3], "/publicity"[1..]) by {
      assert "/publicity"[1..][6] != '/';
    }
  }

  /** The unescaped `.`: `favicon`, any one character but a line terminator,
      then `ico` starts an excluded path, so `/favicon-ico` and anything after
      either spelling is not matched. */
  lemma FaviconDotMatchesAnyChar(c: char, s: string)
    requires !IsLineTerminator(c)
    ensures !Matched("/favicon" + [c] + "ico" + s)
  {
    var a := "/favicon" + [c] + "ico" + s;
    assert PrefixMatches(Exclusions[2], a[1..]) by {
      forall i | 0 <= i < |Exclusions[2]| ensures ClassMatches(Exclusions[2][i], a[1..][i]) {
        if i < 7 {
          assert Exclusions[2][i] == Exact("favicon"[i]);
          assert a[1..][i] == "favicon"[i];
        } else if i == 7 {
          assert Exclusions[2][i] == AnyChar;
          assert a[1..][i] == c;
        } else {
          assert Exclusions[2][i] == Exact("ico"[i - 8]);
          assert a[1..][i] == "ico"[i - 8];
        }
      }
    }
  }

  /** A path is judged by its first segment only: when the text after the `/`
      starts with none of `_`, `f`, `p` and holds no line terminator, the path
      is matched, so `/videos/_next/static/x` is. */
  lemma FirstCharacterDecides(path: string)
    requires |path| >= 2 && path[0] == '/'
    requires path[1] != '_' && path[1] != 'f' && path[1] != 'p'
    requires NoLineTerminator(path[1..])
    ensures Matched(path)
  {
    forall j | 0 <= j < |Exclusions| ensures !PrefixMatches(Exclusions[j], path[1..]) {
      assert Exclusions[j][0] == Exact(['_', '_', 'f', 'p'][j]);
    }
  }

  /** The sign-in page, the registration page and endpoint, and the error page all match the pattern. */
  lemma AuthRoutesMatched()
    ensures Matched(SignInPage)
    ensures Matched("/register")
    ensures Matched("/api/auth/register")
    ensures Matched(ErrorPage)
    ensures Matched("/videos/_next/static/x")
  {
    FirstCharacterDecides(SignInPage);
    FirstCharacterDecides("/register");
    FirstCharacterDecides("/api/auth/register");
    FirstCharacterDecides(ErrorPage);
    FirstCharacterDecides("/videos/_next/static/x");
  }
}

=== FILE: object_ids.dfy ===
/** MongoDB ObjectIds and their `toString()`: a document id is modelled by the
    number it encodes, and its string form is that number in lower-case
    hexadecimal, padded with zeros to 24 digits. */
module ObjectIds {

  /** The number a document's `_id` encodes. */
  type ObjectId = nat

  /** Number of hex digits in the string form of a 12-byte ObjectId. */
  const HexWidth: nat := 24

  const HexAlphabet: string := "0123456789abcdef"

  function HexChar(d: nat): (c: char)
    requires d < 16
  {
    HexAlphabet[d]
  }

  /** The value of one lower-case hex digit (0 for any other character). */
  function HexValue(c: char): (v: nat) {
    if '0' <= c <= '9' then (c as int - '0' as int) as nat
    else if 'a' <= c <= 'f' then (c as int - 'a' as int + 10) as nat
    else 0
  }

  predicate IsHexDigit(c: char) {
    '0' <= c <= '9' || 'a' <= c <= 'f'
  }

  predicate IsHex(s: string) {
    forall i :: 0 <= i < |s| ==> IsHexDigit(s[i])
  }

  function Pow16(k: nat): (r: nat)
    ensures r >= 1
  {
    if k == 0 then 1 else 16 * Pow16(k - 1)
  }

  /** The shortest hex numeral of `n` (one digit for values below 16). */
  function HexDigits(n: nat): (s: string)
    ensures |s| >= 1
    ensures IsHex(s)
    decreases n
  {
    if n < 16 then [HexChar(n)] else HexDigits(n / 16) + [HexChar(n % 16)]
  }

  function Zeros(k: nat): (s: string)
    ensures |s| == k
    ensures forall i :: 0 <= i < k ==> s[i] == '0'
  {
    seq(k, i => '0')
  }

  /** `_id.toString()`: the hex numeral, left-padded with zeros to 24 digits. */
  function IdString(id: ObjectId): (s: string)
    ensures |s| >= HexWidth
    ensures IsHex(s)
  {
    var d := HexDigits(id);
    if |d| < HexWidth then Zeros(HexWidth - |d|) + d else d
  }

  /** Reads a hex numeral, most significant digit first. */
  function ParseHex(s: string): (n: nat) {
    if s == [] then 0 else ParseHex(s[..|s| - 1]) * 16 + HexValue(s[|s| - 1])
  }

  lemma HexCharValue(d: nat)
    requires d < 16
    ensures HexValue(HexChar(d)) == d
  {
  }

  /** Reading back the shortest numeral of `n` gives `n`. */
  lemma {:induction false} ParseHexDigits(n: nat)
    ensures ParseHex(HexDigits(n)) == n
    decreases n
  {
    if n < 16 {
      HexCharValue(n);
      assert HexDigits(n)[..0] == [];
    } else {
      var s := HexDigits(n);
      ParseHexDigits(n / 16);
      HexCharValue(n % 16);
      assert s[..|s| - 1] == HexDigits(n / 16);
    }
  }

  /** Leading zeros do not change the value of a numeral. */
  lemma {:induction false} ParseHexZeros(k: nat, s: string)
    ensures ParseHex(Zeros(k) + s) == ParseHex(s)
    decreases |s|, k
  {
    if s == [] {
      assert Zeros(k) + s == Zeros(k);
      if k > 0 {
        assert Zeros(k)[..k - 1] == Zeros(k - 1);
        ParseHexZeros(k - 1, []);
        assert Zeros(k - 1) + [] == Zeros(k - 1);
      }
    } else {
      var t := Zeros(k) + s;
      assert t[..|t| - 1] == Zeros(k) + s[..|s| - 1];
      ParseHexZeros(k, s[..|s| - 1]);
    }
  }

  /** The string form of an id determines the id. */
  lemma ParseIdString(id: ObjectId)
    ensures ParseHex(IdString(id)) == id
  {
    var d := HexDigits(id);
    ParseHexDigits(id);
    if |d| < HexWidth {
      ParseHexZeros(HexWidth - |d|, d);
    }
  }

  /** Two documents have the same `_id.toString()` exactly when they have the same `_id`. */
  lemma IdStringInjective(a: ObjectId, b: ObjectId)
    ensures IdString(a) == IdString(b) <==> a == b
  {
    ParseIdString(a);
    ParseIdString(b);
  }

  /** A numeral of `n < 16^k` needs at most `k` digits. */
  lemma {:induction false} HexDigitsLength(n: nat, k: nat)
    requires 1 <= k
    requires n < Pow16(k)
    ensures |HexDigits(n)| <= k
    decreases n
  {
    if n >= 16 {
      HexDigitsLength(n / 16, k - 1);
    }
  }

  /** Every 12-byte ObjectId prints as exactly 24 hex digits. */
  lemma IdStringWidth(id: ObjectId)
    requires id < Pow16(HexWidth)
    ensures |IdString(id)| == HexWidth
  {
    HexDigitsLength(id, HexWidth);
  }
}

=== FILE: passwords.dfy ===
/** The bcrypt hashing the user model relies on, abstracted.

    bcrypt draws a random salt for every hash, so the same password hashes to
    different digests. The model keeps the salt as a parameter and a digest
    records the value it was computed from: a password matches a stored value
    exactly when that value is a digest of the password itself. */
module Passwords {
  import opened Wrappers

  /** What a user's `password` field can hold: text as submitted, or a bcrypt
      digest of some earlier value (a digest of a digest is possible). */
  datatype PwValue = Plain(text: string) | Bcrypt(salt: nat, cost: nat, input: PwValue)

  /** The cost factor passed to `bcrypt.hash`. */
  const SaltRounds: nat := 10

  /** `bcrypt.hash(value, 10)` with the salt the library would draw. */
  function Hash(v: PwValue, salt: nat): (h: PwValue)
    ensures h.Bcrypt? && h.input == v && h.cost == SaltRounds
  {
    Bcrypt(salt, SaltRounds, v)
  }

  /** `bcrypt.compare(pw, stored)` against a present stored value. */
  predicate Matches(pw: string, stored: PwValue) {
    stored.Bcrypt? && stored.input == Plain(pw)
  }

  /** `bcrypt.compare` against a field that may be null; a null field never
      matches (the library's own handling of null is not modelled). */
  predicate Compare(pw: string, stored: Option<PwValue>) {
    stored.Some? && Matches(pw, stored.value)
  }

  /** A freshly hashed password matches itself, whatever the salt. */
  lemma FreshHashMatches(pw: string, salt: nat)
    ensures Matches(pw, Hash(Plain(pw), salt))
  {
  }

  /** A stored digest matches at most one password. */
  lemma MatchesDeterminesPassword(p1: string, p2: string, stored: PwValue)
    requires Matches(p1, stored) && Matches(p2, stored)
    ensures p1 == p2
  {
  }

  /** Hashing a digest again locks the user out: their own password, and any
      other password typed as such, fails against a double hash. */
  lemma DoubleHashMatchesNothing(pw: string, v: PwValue, s1: nat, s2: nat)
    ensures !Matches(pw, Hash(Hash(Plain(pw), s1), s2))
    ensures !Matches(pw, Hash(Hash(v, s1), s2))
  {
  }
}

=== FILE: register_route.dfy ===
/** The registration endpoint (`POST /api/auth/register`): field check,
    duplicate check, create, and the JSON response. */
module RegisterRoute {
  import opened Wrappers
  import opened Text
  import opened ObjectIds
  import opened Passwords
  import opened UserModel

  /** The parsed JSON body; either field may be missing. */
  datatype Request = Request(email: Option<string>, password: Option<string>)

  /** The user summary the success response carries: id and email only. */
  datatype UserSummary = UserSummary(id: string, email: string)

  datatype Body =
    | ErrorBody(error: string)
    | CreatedBody(message: string, user: UserSummary)

  datatype Response = Response(status: nat, body: Body)

  const MissingFields: string := "Email and Password are required"
  const AlreadyExists: string := "User already exists"
  const ServerError: string := "Internal Server Error"
  const CreatedMessage: string := "User created successfully"

  /** The handler. `req` is `None` when the body is not valid JSON or is
      `null`, which makes `request.json()` or the destructuring throw; any
      other JSON value destructures, and one without the fields is
      `Some(Request(None, None))`. `salt` is the salt bcrypt would draw.
      Returns the response and the collection afterwards. */
  function Post(s: Store, req: Option<Request>, salt: nat): (r: (Response, Store))
    // every outcome is one of the three statuses, and only success changes the collection
    ensures r.0.status in {200, 400, 500}
    ensures r.0.status != 200 ==> r.1 == s && r.0.body.ErrorBody?
    // unparseable body
    ensures req.None? ==> r.0 == Response(500, ErrorBody(ServerError))
    // missing or empty field, decided before any lookup
    ensures req.Some? && !(Truthy(req.value.email) && Truthy(req.value.password))
      ==> r.0 == Response(400, ErrorBody(MissingFields))
    // duplicate email, in any letter case
    ensures req.Some? && Truthy(req.value.email) && Truthy(req.value.password) && EmailKey(req.value.email.value) in s.users
      ==> r.0 == Response(400, ErrorBody(AlreadyExists))
    // success: exactly one new document, whose digest the password matches
    ensures r.0.status == 200 ==>
      && req.Some? && Truthy(req.value.email) && Truthy(req.value.password)
      && var k := EmailKey(req.value.email.value);
      && k !in s.users
      && k in r.1.users
      && r.1.users == s.users[k := r.1.users[k]]
      && var u := r.1.users[k];
      && u.password.Some? && Matches(req.value.password.value, u.password.value)
      && u.googleId.None?
      && r.0.body == CreatedBody(CreatedMessage, UserSummary(IdString(u.id), k))
    ensures Valid(s) ==> Valid(r.1)
  {
    if req.None? then (Response(500, ErrorBody(ServerError)), s)
    else
      var email := req.value.email;
      var password := req.value.password;
      if !Truthy(email) || !Truthy(password) then (Response(400, ErrorBody(MissingFields)), s)
      else if FindByEmail(s, email.value).Some? then (Response(400, ErrorBody(AlreadyExists)), s)
      else
        match Create(s, NewUser(email.value, password, None), salt)
        case Err(_) => (Response(500, ErrorBody(ServerError)), s)
        case Ok((s', u)) =>
          (Response(200, CreatedBody(CreatedMessage, UserSummary(IdString(u.id), u.email))), s')
  }

  /** With both fields present and the email unused, registration succeeds:
      the 500 fallback is reached only when the body cannot be read. */
  lemma RegisterSucceedsOnFreshEmail(s: Store, email: string, pw: string, salt: nat)
    requires email != [] && pw != []
    requires EmailKey(email) !in s.users
    ensures Post(s, Some(Request(Some(email), Some(pw))), salt).0.status == 200
  {
    var k := EmailKey(email);
    assert k != [];
    assert !GoogleIdTaken(s, None);
  }

  /** Registering the same email twice, in any letter case: the second attempt
      is refused and the collection holds exactly one more document than before. */
  lemma RegisterTwiceKeepsOneRecord(s: Store, e1: string, e2: string, p1: string, p2: string, salt1: nat, salt2: nat)
    requires Lower(e1) == Lower(e2)
    requires e1 != [] && p1 != [] && p2 != []
    requires EmailKey(e1) !in s.users
    ensures var (r1, s1) := Post(s, Some(Request(Some(e1), Some(p1))), salt1);
      var (r2, s2) := Post(s1, Some(Request(Some(e2), Some(p2))), salt2);
      && r1.status == 200
      && r2 == Response(400, ErrorBody(AlreadyExists))
      && s2 == s1
      && |s2.users| == |s.users| + 1
  {
    RegisterSucceedsOnFreshEmail(s, e1, p1, salt1);
    var (r1, s1) := Post(s, Some(Request(Some(e1), Some(p1))), salt1);
    assert s1.users.Keys == s.users.Keys + {EmailKey(e1)};
    assert EmailKey(e2) == EmailKey(e1);
    assert e2 != [] by { assert |e2| == |Lower(e2)| == |Lower(e1)| == |e1|; }
  }
}

=== FILE: text.dfy ===
/** String helpers: JavaScript truthiness of an optional string, prefixes, and
    the lower-casing that the user schema applies to emails. */
module Text {
  import opened Wrappers

  /** True of an ASCII capital letter. */
  predicate IsUpper(c: char) {
    'A' <= c <= 'Z'
  }

  /** Lower-cases one ASCII capital letter and keeps every other character. */
  function LowerChar(c: char): (r: char) {
    if IsUpper(c) then (c as int + 32) as char else c
  }

  /** A string without capital letters: what the schema's `lowercase` option stores. */
  predicate IsLowerCased(s: string) {
    forall i :: 0 <= i < |s| ==> !IsUpper(s[i])
  }

  /** The schema's `lowercase` setter, character by character. */
  function Lower(s: string): (r: string)
    ensures |r| == |s|
    ensures IsLowerCased(r)
    ensures forall i :: 0 <= i < |s| && !IsUpper(s[i]) ==> r[i] == s[i]
    ensures forall i :: 0 <= i < |s| && IsUpper(s[i]) ==> r[i] as int == s[i] as int + 32
  {
    seq(|s|, i requires 0 <= i < |s| => LowerChar(s[i]))
  }

  /** A string that has no capital letters is stored as given. */
  lemma LowerKeepsLowerCased(s: string)
    requires IsLowerCased(s)
    ensures Lower(s) == s
  {
  }

  /** Lower-casing twice is lower-casing once. */
  lemma LowerIdempotent(s: string)
    ensures Lower(Lower(s)) == Lower(s)
  {
    LowerKeepsLowerCased(Lower(s));
  }

  /** `c` and `d` are the same letter up to ASCII case: equal, or one is the
      capital of the other. */
  predicate SameLetterUpToCase(c: char, d: char) {
    || c == d
    || (IsUpper(c) && d as int == c as int + 32)
    || (IsUpper(d) && c as int == d as int + 32)
  }

  /** `a` and `b` differ at most in the ASCII case of their letters. */
  predicate SameUpToCase(a: string, b: string) {
    |a| == |b| && forall i :: 0 <= i < |a| ==> SameLetterUpToCase(a[i], b[i])
  }

  lemma LowerCharAgrees(c: char, d: char)
    ensures LowerChar(c) == LowerChar(d) <==> SameLetterUpToCase(c, d)
  {
  }

  /** Two strings lower-case to the same string exactly when they differ at
      most in the case of their letters. */
  lemma LowerEqualIffSameUpToCase(a: string, b: string)
    ensures Lower(a) == Lower(b) <==> SameUpToCase(a, b)
  {
    if Lower(a) == Lower(b) {
      forall i | 0 <= i < |a| ensures SameLetterUpToCase(a[i], b[i]) {
        assert Lower(a)[i] == Lower(b)[i];
        LowerCharAgrees(a[i], b[i]);
      }
    }
    if SameUpToCase(a, b) {
      forall i | 0 <= i < |a| ensures Lower(a)[i] == Lower(b)[i] {
        LowerCharAgrees(a[i], b[i]);
      }
    }
  }

  /** JavaScript truthiness of a string field that may be missing: `undefined`,
      `null` and the empty string are all falsy. */
  predicate Truthy(v: Option<string>) {
    v.Some? && v.value != []
  }

  /** `s.startsWith(prefix)`. */
  predicate StartsWith(s: string, prefix: string) {
    |prefix| <= |s| && s[..|prefix|] == prefix
  }
}

=== FILE: user_model.dfy ===
/** The `User` collection: the schema's constraints, the pre-save hashing hook
    and the two collection operations the route handlers use (`findOne` by
    email and `create`).

    The collection is a map from the stored (lower-cased) email to the user
    document. Mongo's unique index on `email` is the map's key; the sparse
    unique index on `googleId` and the uniqueness of `_id` are part of `Valid`. */
module UserModel {
  import opened Wrappers
  import opened Text
  import opened ObjectIds
  import opened Passwords

  /** One user document. `password` is optional (accounts created through
      Google have none); `googleId` is optional. Timestamps are not modelled. */
  datatype User = User(id: ObjectId, email: string, password: Option<PwValue>, googleId: Option<string>)

  /** The collection, with the counter that supplies fresh `_id`s. */
  datatype Store = Store(users: map<string, User>, nextId: ObjectId)

  const EmptyStore: Store := Store(map[], 0)

  /** The key an email is stored and looked up under: the schema's `lowercase` setter. */
  function EmailKey(email: string): (k: string)
    ensures IsLowerCased(k) && |k| == |email|
  {
    Lower(email)
  }

  /** A document stored under key `k`: its email is `k`, present (required) and lower-cased. */
  predicate WellKeyed(k: string, u: User) {
    u.email == k && k != [] && IsLowerCased(k)
  }

  /** Whether some stored user already holds `googleId` (an absent id is never taken). */
  predicate GoogleIdTaken(s: Store, googleId: Option<string>) {
    googleId.Some? && exists k | k in s.users :: s.users[k].googleId == googleId
  }

  /** The schema's invariants over the whole collection. */
  ghost predicate Valid(s: Store) {
    && (forall k :: k in s.users ==> WellKeyed(k, s.users[k]) && s.users[k].id < s.nextId)
    && (forall k1, k2 :: k1 in s.users && k2 in s.users && k1 != k2 ==> s.users[k1].id != s.users[k2].id)
    && (forall k1, k2 :: k1 in s.users && k2 in s.users && k1 != k2 && s.users[k1].googleId.Some?
          ==> s.users[k1].googleId != s.users[k2].googleId)
  }

  lemma EmptyStoreValid()
    ensures Valid(EmptyStore)
  {
  }

  /** Every stored user has a non-empty email, and no two stored users share one. */
  lemma EmailsRequiredAndUnique(s: Store, k1: string, k2: string)
    requires Valid(s)
    requires k1 in s.users && k2 in s.users
    ensures s.users[k1].email != []
    ensures k1 != k2 ==> s.users[k1].email != s.users[k2].email
  {
  }

  /** Any number of users may lack a `googleId`; one that has one has it alone. */
  lemma GoogleIdSparseUnique(s: Store, k1: string, k2: string)
    requires Valid(s)
    requires k1 in s.users && k2 in s.users && k1 != k2
    requires s.users[k1].googleId == s.users[k2].googleId
    ensures s.users[k1].googleId.None?
  {
  }

  /** Two emails are stored and looked up under the same key exactly when they
      differ at most in the case of their letters. */
  lemma CaseVariantsShareKey(a: string, b: string)
    ensures EmailKey(a) == EmailKey(b) <==> SameUpToCase(a, b)
  {
    LowerEqualIffSameUpToCase(a, b);
  }

  /** `findOne({email})`; the query goes through the same lower-casing as the stored field. */
  function FindByEmail(s: Store, email: string): (r: Option<User>)
    ensures r.Some? <==> EmailKey(email) in s.users
    ensures r.Some? ==> r.value == s.users[EmailKey(email)]
  {
    var k := EmailKey(email);
    if k in s.users then Some(s.users[k]) else None
  }

  /** A document about to be saved, with whether its `password` path was modified. */
  datatype Doc = Doc(user: User, passwordModified: bool)

  /** The `pre("save")` hook: the password is replaced by its hash only if
      it was modified. A null password is left null. */
  function PreSave(d: Doc, salt: nat): (r: Doc)
    ensures r.user.(password := d.user.password) == d.user
    ensures r.passwordModified == d.passwordModified
    ensures d.passwordModified && d.user.password.Some? ==> r.user.password == Some(Hash(d.user.password.value, salt))
    ensures !(d.passwordModified && d.user.password.Some?) ==> r.user.password == d.user.password
  {
    if d.passwordModified && d.user.password.Some? then
      d.(user := d.user.(password := Some(Hash(d.user.password.value, salt))))
    else d
  }

  /** `doc.save()`: runs the hook, then the document is clean again. */
  function Save(d: Doc, salt: nat): (r: Doc)
    ensures !r.passwordModified
    // only the password may change, and only to the hash of a modified, present password
    ensures r.user.(password := d.user.password) == d.user
    ensures d.passwordModified && d.user.password.Some? ==> r.user.password == Some(Hash(d.user.password.value, salt))
    ensures !(d.passwordModified && d.user.password.Some?) ==> r.user.password == d.user.password
  {
    PreSave(d, salt).(passwordModified := false)
  }

  /** Saving a document whose password was not touched since its last save
      changes nothing: the stored digest is never hashed a second time. */
  lemma ResaveChangesNothing(d: Doc, s1: nat, s2: nat)
    ensures Save(Save(d, s1), s2) == Save(d, s1)
  {
  }

  /** Saving a new document with a plain password stores a digest that the
      password matches. */
  lemma SavedPasswordMatches(u: User, pw: string, salt: nat)
    requires u.password == Some(Plain(pw))
    ensures var saved := Save(Doc(u, true), salt).user;
      saved.password.Some? && Matches(pw, saved.password.value)
  {
  }

  /** Errors the collection raises on `create`. */
  datatype DbError =
    | ValidationError(path: string)   // a required path is missing
    | DuplicateKey(index: string)     // a unique index would be violated

  /** The fields a caller passes to `User.create`. */
  datatype NewUser = NewUser(email: string, password: Option<string>, googleId: Option<string>)

  /** `User.create(fields)`: cast (lower-case the email), validate (email
      required), run the save hook, insert (unique indexes on `email` and the
      sparse one on `googleId`). */
  function Create(s: Store, n: NewUser, salt: nat): (r: Result<(Store, User), DbError>)
    ensures r.Ok? <==> EmailKey(n.email) != [] && EmailKey(n.email) !in s.users && !GoogleIdTaken(s, n.googleId)
    ensures EmailKey(n.email) == [] ==> r == Err(ValidationError("email"))
    ensures r.Ok? ==>
      var (s', u) := r.value;
      && u.email == EmailKey(n.email)
      && u.id == s.nextId
      && u.googleId == n.googleId
      && (n.password.None? ==> u.password.None?)
      && (n.password.Some? ==> u.password.Some? && Matches(n.password.value, u.password.value))
      && s'.users == s.users[u.email := u]
      && s'.nextId > s.nextId
    ensures Valid(s) && r.Ok? ==> Valid(r.value.0)
  {
    var k := EmailKey(n.email);
    if k == [] then Err(ValidationError("email"))
    else if k in s.users then Err(DuplicateKey("email"))
    else if GoogleIdTaken(s, n.googleId) then Err(DuplicateKey("googleId"))
    else
      var password := if n.password.Some? then Some(Plain(n.password.value)) else None;
      var created := User(s.nextId, k, password, n.googleId);
      var u := Save(Doc(created, password.Some?), salt).user;
      Ok((Store(s.users[k := u], s.nextId + 1), u))
  }
}

=== FILE: wrappers.dfy ===
/** Optional values and success-or-error results, shared by every module of the model. */
module Wrappers {

  /** A value that may be absent: JavaScript's `undefined`/`null` or a missing JSON field. */
  datatype Option<+T> = None | Some(value: T)

  /** The outcome of an operation that either returns a value or throws an error. */
  datatype Result<+T, +E> = Ok(value: T) | Err(error: E)
}
